=== FILE: README.md ===
# JAIN SLEE container core, modelled in Dafny

This project models four small, sequential pieces of a JAIN SLEE (JSR 240)
service-execution container and its resource adaptors:

- **Service** (`SleeService`, `service.dfy`): the run-time record of a
  deployed service. Its operational state is read with an INACTIVE fallback.
  `setState` writes the state and queues one after-commit action that tells
  every resource adaptor entity about the change, in list order. Convergence
  names map to root SBB entity IDs, and creating a root entity requires a
  transaction. The service activity has a strict start and a best-effort end.
  The container singleton looked up through JNDI is replaced by explicit
  state: the cache record is inside `Service`, a `TransactionContext` holds
  the "active" flag and the ordered after-commit queue, and the
  activity-context registry is a map that goes in and comes back out.
- **SIP dialog wrapper** (`DialogWrapping`, `dialog_wrapper.dfy`, on top of
  the javax.sip message abstraction in `SipMessages`, `sip_messages.dfy`):
  the ongoing client and server transaction maps keyed by Via branch ID,
  guarded by the dialog state. It also covers the cross-dialog association
  of a client transaction with a server transaction, and the forging of a
  request or response from another dialog's message. Forging uses fixed
  omit-sets of header names and a To/From parameter merge that never copies
  `tag` (section 19.3 of RFC 3261) and never overwrites a parameter. The
  runtime-type dispatch of the generic add is the tagged variant
  `TransactionWrapper`.
- **Profile management handler** (`ProfileManagement`,
  `profile_management.dfy`): the dirty flag, the always-true validity check,
  the lifecycle hooks that do nothing, and the two usage-parameter-set
  lookups.
- **SMPP `query_sm` TLV policy** (`QuerySmPdu`, `query_sm.dfy`): a PDU that
  admits no optional parameter.

`outcomes.dfy` holds the shared `Option` (a Java reference that may be null)
and `Result` (a value or one of the source's exceptions).

Every operation is a pure function or method on immutable values, returning
a `Result` with a typed error wherever the source throws, except for the
failed casts and null references listed under "## Left out".

Modelling choices:
- `ServiceCacheData` is not part of this model. The cache record is a value
  with a presence flag, a removed flag, a nullable state and the
  convergence-name map. Writing the state changes only the state field.
  `remove()` clears the record and sets the removed flag.
- Registering an after-commit action fails exactly when no transaction is
  active. That is the `SystemException` that `setState` wraps in a
  `SLEEException`. The state write comes before it and stays done, so
  `SetState` returns the written service on both paths.
- The resource adaptor entity list is read when the queued action runs, as
  in the source. So it is an argument of `RunAfterCommitActions`, not of
  `SetState`.
- The SBB entity factory, the cache lookup and the cache record's
  `create()` are calls into code that is not part of this model. Their
  outcomes are parameters: `None` (or `false`) stands for the exception.
- The profile table's usage MBean is not part of this model. Its
  `getInstalledUsageParameterSet` is a partial map from name to set, plus
  an abstract outcome for a name with nothing installed: a null return or
  an error. The source leaves this open, and
  `getProfileDefaultUsageParam` declares no checked exception though it
  calls the same lookup.
- `ActivityContext.end()` is not part of this model. Ending is modelled as
  setting the context's ended flag.
- A SIP message is its header names in order plus, for each name, its
  headers. Re-parsing a copied header through the header factory is an
  identity copy.
- The wrapped javax.sip dialog is reduced to its state (which may be null),
  its local party and its application data. The transaction wrappers
  (`ClientTransactionWrapper`, `ServerTransactionWrapper`) are not part of
  this model. They are reduced to their branch ID and, for a client, the
  associated server transaction.
- `isProfileDirty` is the predicate `ProfileManagement.IsProfileDirty`. It
  reads the entity's flag and, being a pure function, changes nothing.

## Model

| member | source | states |
|---|---|---|
| `SleeService.NewService` | core/jar/src/main/java/org/mobicents/slee/container/service/Service.java:60-83 | A null component fails with the null-pointer error. A failed cache lookup fails with the load error, and so does a failed `create()` of a missing record under `initCachedData`, and nothing else fails. On success the service takes the component's default priority. With `initCachedData`, a missing record is created fresh; an existing record, or any record when the flag is off, is kept as is |
| `SleeService.RemoveFromCache` | core/jar/src/main/java/org/mobicents/slee/container/service/Service.java:329-331 | After removal, `getState` is INACTIVE and no convergence name is mapped |
| `SleeService.NewServiceStartsInactive` | core/jar/src/main/java/org/mobicents/slee/container/service/Service.java:60-182 | A service constructed with `initCachedData` over a missing record reads INACTIVE with no name mapped. Any constructed service reads INACTIVE once removed from the cache |
| `SleeService.GetState` | core/jar/src/main/java/org/mobicents/slee/container/service/Service.java:172-182 | INACTIVE when the record is missing, marked removed or holds a null state; otherwise the stored state |
| `SleeService.SetState` | core/jar/src/main/java/org/mobicents/slee/container/service/Service.java:139-164 | The new state, which may be null, is stored whether or not a transaction is active, and nothing else in the record changes. Registering the notify action fails with the system-level error exactly when no transaction is active. Otherwise exactly one notify action for this service and state is appended, keeping the earlier queue as its prefix |
| `SleeService.CallFor` | core/jar/src/main/java/org/mobicents/slee/container/service/Service.java:148-156 | A null state produces no call. A state produces one call on the given entity with the service's ID, announcing that state |
| `SleeService.ExecuteAction` | core/jar/src/main/java/org/mobicents/slee/container/service/Service.java:143-159 | Running the action calls, for each RA entity in list order, the one callback matching the state with the service's ID. With a null state it calls nothing |
| `SleeService.RunAfterCommitActionsAppend` | core/jar/src/main/java/org/mobicents/slee/container/service/Service.java:160-161 | Queuing one more action only appends that action's calls after the calls of the actions queued before it |
| `SleeService.SetStateNotifiesOnCommit` | core/jar/src/main/java/org/mobicents/slee/container/service/Service.java:139-164 | `setState` itself calls nothing. On commit, the calls already due come first, followed by exactly one call per RA entity in list order, announcing the new state for this service |
| `SleeService.SetStateSoleNotifications` | core/jar/src/main/java/org/mobicents/slee/container/service/Service.java:143-159 | With nothing queued before, the committed calls go to exactly the RA entity list, in order, each announcing the new state for this service |
| `SleeService.SetStateThenGetState` | core/jar/src/main/java/org/mobicents/slee/container/service/Service.java:139-182 | On a live record, reading back after `setState(s)` gives `s`, or INACTIVE for a null `s`, whether or not the notification could be queued |
| `SleeService.ContainsConvergenceName` | core/jar/src/main/java/org/mobicents/slee/container/service/Service.java:201-203 | True exactly when the service maps the convergence name; `GetRootSbbEntityId`, `AddChild` and `RemoveConvergenceName` state their results in terms of it |
| `SleeService.GetRootSbbEntityId` | core/jar/src/main/java/org/mobicents/slee/container/service/Service.java:201-234 | The lookup returns an ID exactly when `containsConvergenceName` holds |
| `SleeService.AddChild` | core/jar/src/main/java/org/mobicents/slee/container/service/Service.java:211-230 | Without a transaction, fails with the mandate-transaction error; a factory failure is a create error. On success the new root entity has the root SBB, the service ID, the name and the default priority. Afterwards `getRootSbbEntityId(name)` is its ID, every other name keeps its mapping, and the state is unchanged |
| `SleeService.RemoveConvergenceName` | core/jar/src/main/java/org/mobicents/slee/container/service/Service.java:236-241 | Afterwards the name is not contained; every other mapping and the state are unchanged |
| `SleeService.AddChildThenRemove` | core/jar/src/main/java/org/mobicents/slee/container/service/Service.java:211-241 | Add followed by remove leaves the name unmapped and every other name mapped as before the add |
| `SleeService.StartActivity` | core/jar/src/main/java/org/mobicents/slee/container/service/Service.java:265-284 | Fails with "service activity already exists" exactly when a context for the service-activity handle exists. Otherwise it registers a new, not-ended context for that handle carrying exactly one service-started event. Every other context is unchanged |
| `SleeService.EndActivity` | core/jar/src/main/java/org/mobicents/slee/container/service/Service.java:311-324 | With no context, the registry is unchanged and the miss is reported, not raised. Otherwise that context is marked ended and nothing else changes |
| `SleeService.StartActivityTwice` | core/jar/src/main/java/org/mobicents/slee/container/service/Service.java:265-276 | A second start after a successful one fails with "service activity already exists" |
| `SleeService.StartThenEndActivity` | core/jar/src/main/java/org/mobicents/slee/container/service/Service.java:265-324 | Start then end leaves the service context ended, still carrying its one service-started event |
| `DialogWrapping.Wrap` | resources/sip_1_1/ra/src/main/java/org/mobicents/slee/resource/sip/wrappers/DialogWrapper.java:65-94 | Refuses, exactly when the dialog already holds a wrapper. Otherwise it installs itself as the dialog's application data, keeps the initiating transaction ID and starts with no ongoing transactions |
| `DialogWrapping.WrapTwiceFails` | resources/sip_1_1/ra/src/main/java/org/mobicents/slee/resource/sip/wrappers/DialogWrapper.java:67-81 | A dialog that was wrapped cannot be wrapped again |
| `DialogWrapping.HasOngoingServerTransaction` | resources/sip_1_1/ra/src/main/java/org/mobicents/slee/resource/sip/wrappers/DialogWrapper.java:333-335 | True exactly when the branch is registered as an ongoing server transaction; the server lookup, add and remove state their results in terms of it |
| `DialogWrapping.HasOngoingClientTransaction` | resources/sip_1_1/ra/src/main/java/org/mobicents/slee/resource/sip/wrappers/DialogWrapper.java:337-339 | True exactly when the branch is registered as an ongoing client transaction; the client lookup, add, remove and association operations state their results in terms of it |
| `DialogWrapping.GetClientTransaction` | resources/sip_1_1/ra/src/main/java/org/mobicents/slee/resource/sip/wrappers/DialogWrapper.java:175-177 | Returns a wrapper exactly when `hasOngoingClientTransaction` holds for the branch |
| `DialogWrapping.GetServerTransaction` | resources/sip_1_1/ra/src/main/java/org/mobicents/slee/resource/sip/wrappers/DialogWrapper.java:183-185 | Returns a wrapper exactly when `hasOngoingServerTransaction` holds for the branch |
| `DialogWrapping.AddClientTransaction` | resources/sip_1_1/ra/src/main/java/org/mobicents/slee/resource/sip/wrappers/DialogWrapper.java:356-368 | A TERMINATED dialog fails with the state error; a null state is allowed. An already ongoing branch fails as a duplicate. On success the branch maps to the wrapper, other branches keep their entries, and nothing outside the client map changes |
| `DialogWrapping.AddServerTransaction` | resources/sip_1_1/ra/src/main/java/org/mobicents/slee/resource/sip/wrappers/DialogWrapper.java:341-354 | The same for server transactions; nothing outside the server map changes |
| `DialogWrapping.AddOngoingTransaction` | resources/sip_1_1/ra/src/main/java/org/mobicents/slee/resource/sip/wrappers/DialogWrapper.java:370-383 | A client wrapper goes to the client add and a server wrapper to the server add. Any other wrapper fails with the wrong-type error |
| `DialogWrapping.RemoveClientTransaction` | resources/sip_1_1/ra/src/main/java/org/mobicents/slee/resource/sip/wrappers/DialogWrapper.java:385-390 | On a TERMINATED dialog, nothing changes. Otherwise only that branch is gone, and nothing outside the client map changes |
| `DialogWrapping.RemoveServerTransaction` | resources/sip_1_1/ra/src/main/java/org/mobicents/slee/resource/sip/wrappers/DialogWrapper.java:392-397 | The same for server transactions |
| `DialogWrapping.ClearAssociations` | resources/sip_1_1/ra/src/main/java/org/mobicents/slee/resource/sip/wrappers/DialogWrapper.java:399-419 | Every registered client wrapper is released with its association dropped and its branch kept, one per registered branch. Afterwards no branch is ongoing in either map, and the dialog and initiating transaction ID are unchanged |
| `DialogWrapping.ClearThenAdd` | resources/sip_1_1/ra/src/main/java/org/mobicents/slee/resource/sip/wrappers/DialogWrapper.java:341-419 | After clearing, a client or server add succeeds exactly when the dialog is not TERMINATED |
| `DialogWrapping.ClearThenReAddHasNoAssociation` | resources/sip_1_1/ra/src/main/java/org/mobicents/slee/resource/sip/wrappers/DialogWrapper.java:403-419 | A client wrapper released by clearing can be registered again on a dialog that is not TERMINATED, and then reads back no associated server transaction |
| `DialogWrapping.AddClientTwiceFails` | resources/sip_1_1/ra/src/main/java/org/mobicents/slee/resource/sip/wrappers/DialogWrapper.java:362-365 | A second client add with the same branch fails |
| `DialogWrapping.AddServerTwiceFails` | resources/sip_1_1/ra/src/main/java/org/mobicents/slee/resource/sip/wrappers/DialogWrapper.java:347-350 | A second server add of the same wrapper fails as a duplicate |
| `DialogWrapping.AddThenRemoveClient` | resources/sip_1_1/ra/src/main/java/org/mobicents/slee/resource/sip/wrappers/DialogWrapper.java:356-390 | Add then remove of one client branch gives back the original wrapper |
| `DialogWrapping.AddThenRemoveServer` | resources/sip_1_1/ra/src/main/java/org/mobicents/slee/resource/sip/wrappers/DialogWrapper.java:341-397 | Add then remove of one server branch gives back the original wrapper |
| `DialogWrapping.AssociateServerTransaction` | resources/sip_1_1/ra/src/main/java/org/mobicents/slee/resource/sip/wrappers/DialogWrapper.java:96-117 | Fails unless the client transaction is ongoing here and the server transaction is ongoing in its own dialog, with the client check first. On success, `getAssociatedServerTransaction` yields the server transaction; only that branch's client entry changes, and nothing outside the client map does |
| `DialogWrapping.GetAssociatedServerTransaction` | resources/sip_1_1/ra/src/main/java/org/mobicents/slee/resource/sip/wrappers/DialogWrapper.java:163-173 | Fails exactly when the client transaction is not ongoing. Otherwise it returns the association of the registered wrapper, which may be null |
| `DialogWrapping.CopyParameters` | resources/sip_1_1/ra/src/main/java/org/mobicents/slee/resource/sip/wrappers/DialogWrapper.java:511-545 | The result holds the forged header's parameters unchanged, plus every original parameter that is neither omitted nor already present. Nothing else is added |
| `DialogWrapping.CopyParametersKeepsTag` | resources/sip_1_1/ra/src/main/java/org/mobicents/slee/resource/sip/wrappers/DialogWrapper.java:436-444 | With the To/From omit-set, `tag` is present after the copy exactly when the forged header had it, with its own value |
| `DialogWrapping.CopyParametersIdempotent` | resources/sip_1_1/ra/src/main/java/org/mobicents/slee/resource/sip/wrappers/DialogWrapper.java:515-531 | Copying into an already merged header adds nothing |
| `DialogWrapping.OmittedNames` | resources/sip_1_1/ra/src/main/java/org/mobicents/slee/resource/sip/wrappers/DialogWrapper.java:123-157 | Neither omit-set contains To or From. The response omit-set contains the request omit-set plus Contact, which the request omit-set lacks |
| `DialogWrapping.ForgeHeader` | resources/sip_1_1/ra/src/main/java/org/mobicents/slee/resource/sip/wrappers/DialogWrapper.java:430-484 | Handling one header name touches only that name. To/From merge parameters into the first forged header. It fails with the null-pointer error exactly when the original lacks that To/From, or when the forged message lacks it while the original's has a parameter. Omitted names are left alone, and any other name is replaced by the original's headers |
| `DialogWrapping.ForgeHeaderBareToFrom` | resources/sip_1_1/ra/src/main/java/org/mobicents/slee/resource/sip/wrappers/DialogWrapper.java:511-531 | An original To/From without parameters over a forged message lacking that header is no error: the message is left exactly as it was |
| `DialogWrapping.MergedToFromIdempotent` | resources/sip_1_1/ra/src/main/java/org/mobicents/slee/resource/sip/wrappers/DialogWrapper.java:436-444 | Merging the same original To/From into an already merged header changes nothing |
| `DialogWrapping.ForgeHeaderAdvances` | resources/sip_1_1/ra/src/main/java/org/mobicents/slee/resource/sip/wrappers/DialogWrapper.java:427-485 | One step of the header loop succeeds exactly when the name is not To/From, or the original has it and the forged message has it too unless the original's header has no parameter. It extends the set of names holding their final headers by one |
| `DialogWrapping.ForgeMessage` | resources/sip_1_1/ra/src/main/java/org/mobicents/slee/resource/sip/wrappers/DialogWrapper.java:422-485 | Succeeds exactly when every To/From name of the original is present in the original, and in the forged message too unless the original's header has no parameter. Each name then holds: the forged headers if the original lacks it or it is omitted, the merged headers for To/From, and the original's headers otherwise |
| `DialogWrapping.ForgedHeadersByKind` | resources/sip_1_1/ra/src/main/java/org/mobicents/slee/resource/sip/wrappers/DialogWrapper.java:445-484 | After forging, an omitted non-To/From name keeps the forged message's headers. A non-omitted, non-To/From name of the original takes the original's headers |
| `DialogWrapping.CreateRequest` | resources/sip_1_1/ra/src/main/java/org/mobicents/slee/resource/sip/wrappers/DialogWrapper.java:119-131 | A request the dialog cannot create fails with the forging error. On success every header name holds its forged headers: To/From merged without touching the dialog's own tag, names the original lacks left as the dialog made them, Route, Record-Route, Via, Call-ID and CSeq never copied, and every other header of the original copied |
| `DialogWrapping.CreateResponse` | resources/sip_1_1/ra/src/main/java/org/mobicents/slee/resource/sip/wrappers/DialogWrapper.java:133-161 | A server transaction that is not ongoing fails first, then a response that cannot be created. On success every name but Contact holds its forged headers: To/From merged, names the received response lacks untouched, Route, Record-Route, Via, Call-ID and CSeq not copied, and other headers copied. The Contact headers are the created response's own plus exactly one built from the local party |
| `DialogWrapping.ForgedToFromKeepsOwnParameters` | resources/sip_1_1/ra/src/main/java/org/mobicents/slee/resource/sip/wrappers/DialogWrapper.java:436-444 | After forging, each To/From the forged message has keeps its header count, its own `tag` (present exactly when it was) and every parameter it already had |
| `SipMessages.FirstHeader` | resources/sip_1_1/ra/src/main/java/org/mobicents/slee/resource/sip/wrappers/DialogWrapper.java:439-440 | `getHeader` is null exactly when no header of that name exists; otherwise it is the first one |
| `SipMessages.RemoveHeader` | resources/sip_1_1/ra/src/main/java/org/mobicents/slee/resource/sip/wrappers/DialogWrapper.java:452-453 | Removes every header of the name, and only those |
| `SipMessages.AddLast` | resources/sip_1_1/ra/src/main/java/org/mobicents/slee/resource/sip/wrappers/DialogWrapper.java:472-473 | Appends one header after the others of its name; other names are unchanged |
| `SipMessages.AddAllLast` | resources/sip_1_1/ra/src/main/java/org/mobicents/slee/resource/sip/wrappers/DialogWrapper.java:455-483 | Appending copies one by one leaves the name with its old headers followed by the copies, in order |
| `SipMessages.SetFirstParams` | resources/sip_1_1/ra/src/main/java/org/mobicents/slee/resource/sip/wrappers/DialogWrapper.java:529-531 | Only the first header of the name gets the new parameters; everything else is unchanged |
| `ProfileManagement.MarkProfileDirty` | core/jar/src/main/java/org/mobicents/slee/container/profile/ProfileManagementHandler.java:28-53 | Afterwards `isProfileDirty` is true; the profile name and the table are unchanged, and an already dirty profile is unchanged |
| `ProfileManagement.MarkProfileDirtyIdempotent` | core/jar/src/main/java/org/mobicents/slee/container/profile/ProfileManagementHandler.java:47-53 | Marking twice is the same as marking once |
| `ProfileManagement.IsProfileDirty` | core/jar/src/main/java/org/mobicents/slee/container/profile/ProfileManagementHandler.java:28-34 | The dirty flag of the profile entity; `MarkProfileDirty` and `LifecycleHooksChangeNothing` state their results in terms of it |
| `ProfileManagement.IsProfileValid` | core/jar/src/main/java/org/mobicents/slee/container/profile/ProfileManagementHandler.java:36-45 | True for every profile and ID |
| `ProfileManagement.RunLifecycleHook` | core/jar/src/main/java/org/mobicents/slee/container/profile/ProfileManagementHandler.java:55-96 | Each of initialize, load, store, verify, activate, passivate, postCreate, remove, setContext and unsetContext returns normally and changes nothing |
| `ProfileManagement.LifecycleHooksChangeNothing` | core/jar/src/main/java/org/mobicents/slee/container/profile/ProfileManagementHandler.java:55-96 | Any sequence of hooks leaves the profile object, including its dirty flag, as it was |
| `ProfileManagement.InstalledUsageParameterSet` | core/jar/src/main/java/org/mobicents/slee/container/profile/ProfileManagementHandler.java:114-115 | The table lookup returns the installed set, non-null, exactly when there is one for the name. On a miss it returns null or raises the error, as the table's miss outcome says |
| `ProfileManagement.GetProfileUsageParam` | core/jar/src/main/java/org/mobicents/slee/container/profile/ProfileManagementHandler.java:98-116 | A null name fails with the null-pointer error whatever the table holds. A non-null name gets exactly the table's answer, null or errors included |
| `ProfileManagement.GetProfileDefaultUsageParam` | core/jar/src/main/java/org/mobicents/slee/container/profile/ProfileManagementHandler.java:118-130 | The table's answer for the null name: the set installed under null, non-null, exactly when there is one. With no set under null, it fails exactly when the table raises on a miss, and then with the table's own error, never the null-name refusal |
| `ProfileManagement.NamedAndDefaultLookups` | core/jar/src/main/java/org/mobicents/slee/container/profile/ProfileManagementHandler.java:98-130 | The named lookup refuses null regardless of the table, while the default lookup passes null through and returns the set installed under it. A non-null name yields a set exactly when one is installed. When neither name has a set, both lookups give the same answer |
| `QuerySmPdu.AddTlv` | resources/smpp/events/src/main/java/net/java/slee/resources/smpp/pdu/QuerySM.java:18-20 | Always fails with TLV-not-permitted carrying the tag |
| `QuerySmPdu.GetValue` | resources/smpp/events/src/main/java/net/java/slee/resources/smpp/pdu/QuerySM.java:22-24 | No value for any tag |
| `QuerySmPdu.RemoveTlv` | resources/smpp/events/src/main/java/net/java/slee/resources/smpp/pdu/QuerySM.java:26-28 | Nothing removed for any tag, and the PDU is unchanged |
| `QuerySmPdu.HasTlv` | resources/smpp/events/src/main/java/net/java/slee/resources/smpp/pdu/QuerySM.java:30-32 | False for every tag |
| `QuerySmPdu.IsTlvPermitted` | resources/smpp/events/src/main/java/net/java/slee/resources/smpp/pdu/QuerySM.java:34-36 | False for every tag |
| `QuerySmPdu.GetAllTlvs` | resources/smpp/events/src/main/java/net/java/slee/resources/smpp/pdu/QuerySM.java:38-40 | Absent (null), not an empty map |
| `QuerySmPdu.TlvPolicyConsistent` | resources/smpp/events/src/main/java/net/java/slee/resources/smpp/pdu/QuerySM.java:18-36 | The permission predicate holds exactly when the add succeeds, and presence holds exactly when a value is returned |
| `QuerySmPdu.NoTlvAfterAdd` | resources/smpp/events/src/main/java/net/java/slee/resources/smpp/pdu/QuerySM.java:18-32 | After any add attempt, no tag is present and no value is returned |

## Left out

- Logging, `toString` and the plain getters (`getDefaultPriority`, `getServiceID`, `getRootSbbID`, `getServiceComponent`, `getInitiatingTransactionId`, `getActivityHandle`, `getWrappedObject`): they are logging, or field reads the datatypes expose directly.
- `Service.getChildObj` and `getServiceActivity`: they read cache contents or build a value object that is not part of this model.
- The deferred service-started event's internals and `ActivityContext.end()`'s event delivery: ActivityContext and the event router are not part of this model. Ending is only the ended flag.
- The STOPPING to INACTIVE transition done later by the event router: it is not in the modelled code.
- Real commit and rollback: the transaction is only an "active" flag and an ordered after-commit queue, which `RunAfterCommitActions` drains on commit.
- DialogWrapping.GetAssociatedServerTransaction: reads the association from the wrapper registered under the client's branch, not from the object passed in. In the model a wrapper's state lives in the dialog's map. The `ClientTransactionWrapper` cast and its `ClassCastException` are not modelled, because every client transaction here is a wrapper.
- DialogWrapping.AssociateServerTransaction: the server transaction's dialog is passed in. A `getDialog()` that is null (a `NullPointerException`) or not a dialog wrapper (a `ClassCastException`) is not modelled. Neither is the `ClassCastException` of the client and server wrapper casts after both checks, because every transaction here is a wrapper.
- DialogWrapping.Wrap: a null dialog (a `NullPointerException` on its application data) is not modelled; the dialog argument is always present.
- DialogWrapper pass-through calls to the javax.sip dialog (`createAck`, `createPrack`, `sendRequest`, `sendAck`, the sequence-number and party getters and the rest) and `delete()`: they delegate to the javax.sip stack or the resource adaptor, which are not part of this model.
- The server transaction wrappers' own `clearAssociations()`: a server wrapper here is only its branch ID, since associations are recorded on the client side, so there is nothing of it to clear.
- Re-parsing a copied header through the header factory, and its parse error: it is an identity copy here.
- The raw content copy at the end of `forgeMessage`: message bodies are not modelled.
- DialogWrapping.CopyParameters: a parameter present without a value (such as `lr`) is not distinguished from one with a value, so the case the source's own comment flags is not modelled. Nor is a `setParameter` that throws `ParseException`: the source logs it and leaves that parameter uncopied, while the model copies every parameter that is neither omitted nor already present, since parsing parameter values is not part of this model.
- The `synchronized` blocks, including removal of a server transaction locking the map instead of the dialog: this is a concurrency concern; every operation here is sequential.
- The SIP activity handle built from the dialog's hash code: hashing is not modelled.
- `switchContextClassLoader` in the profile handler: thread context class loaders are not modelled.
- The contents of the profile table's usage MBean: they are an abstract partial map from name to installed set, with an abstract outcome on a miss.
- QuerySM's abstract message-ID and source-address accessors: they have no implementation in the modelled class and appear only as fields.

=== FILE: dialog_wrapper.dfy ===
/** The SIP resource adaptor's dialog wrapper: the registry of ongoing
    client and server transactions keyed by Via branch ID, guarded by the
    dialog state; the association of a client transaction with a server
    transaction of another dialog; and the forging of a request or response
    from a message received on another dialog.

    The wrapper's mutable maps are values here and every operation returns
    the updated wrapper. The runtime-type dispatch of the generic add is the
    tagged variant `TransactionWrapper`. */
module DialogWrapping {
  import opened Outcomes
  import opened SipMessages

  datatype DialogState = Early | Confirmed | Completed | Terminated

  /** What the wrapped dialog holds as application data. */
  datatype AppData = NoAppData | WrapperAppData | OtherAppData(data: string)

  /** The javax.sip dialog, reduced to what the wrapper reads: its state
      (possibly null), its local party and its application data. */
  datatype SipDialog = SipDialog(state: Option<DialogState>, localParty: string, appData: AppData)

  datatype ServerTransactionWrapper = ServerTransactionWrapper(branchId: string)

  /** A client transaction wrapper and the server transaction it is
      associated with, if any. */
  datatype ClientTransactionWrapper = ClientTransactionWrapper(
    branchId: string,
    associated: Option<ServerTransactionWrapper>)

  /** The argument of the generic add: a client wrapper, a server wrapper, or
      some other wrapper type. */
  datatype TransactionWrapper =
    | ClientTx(client: ClientTransactionWrapper)
    | ServerTx(server: ServerTransactionWrapper)
    | UntypedTx(branchId: string)

  datatype DialogWrapper = DialogWrapper(
    dialog: SipDialog,
    initiatingTransactionId: Option<string>,
    clients: map<string, ClientTransactionWrapper>,
    servers: map<string, ServerTransactionWrapper>)

  datatype DialogError =
    | AlreadyWrapped                      // IllegalArgumentException in the constructor
    | WrongDialogState                    // IllegalStateException: dialog is TERMINATED
    | DuplicateTransaction                // RuntimeException: same branch added twice
    | WrongTransactionType                // IllegalArgumentException: not client nor server
    | ClientTransactionNotOngoing         // IllegalArgumentException
    | ServerTransactionNotOngoing         // IllegalArgumentException
    | ForgeFailure                        // SipException: the forged message could not be created
    | MissingParametersHeader(name: string) // NullPointerException on an absent To/From

  // ---------------------------------------------------------------- construction

  /** The constructor: refuses a dialog that already carries a wrapper,
      otherwise installs itself as the dialog's application data. */
  function Wrap(d: SipDialog, initTxId: Option<string>): (r: Result<DialogWrapper, DialogError>)
    ensures d.appData == WrapperAppData <==> r == Failure(AlreadyWrapped)
    ensures r.Success? ==>
      && r.value.dialog == d.(appData := WrapperAppData)
      && r.value.initiatingTransactionId == initTxId
      && forall b :: !HasOngoingClientTransaction(r.value, b) && !HasOngoingServerTransaction(r.value, b)
  {
    if d.appData == WrapperAppData then Failure(AlreadyWrapped)
    else Success(DialogWrapper(d.(appData := WrapperAppData), initTxId, map[], map[]))
  }

  /** The dialog of a wrapper cannot be wrapped a second time. */
  lemma WrapTwiceFails(d: SipDialog, initTxId: Option<string>, otherTxId: Option<string>)
    requires Wrap(d, initTxId).Success?
    ensures Wrap(Wrap(d, initTxId).value.dialog, otherTxId) == Failure(AlreadyWrapped)
  {
  }

  // ---------------------------------------------------------------- ongoing transactions

  /** The guard of the adds: a null state does not count as TERMINATED. */
  predicate IsTerminated(w: DialogWrapper) {
    w.dialog.state == Some(Terminated)
  }

  predicate HasOngoingClientTransaction(w: DialogWrapper, branchId: string) {
    branchId in w.clients
  }

  predicate HasOngoingServerTransaction(w: DialogWrapper, branchId: string) {
    branchId in w.servers
  }

  /** `getClientTransaction(id)`: null (`None`) when not ongoing. */
  function GetClientTransaction(w: DialogWrapper, branchId: string): (r: Option<ClientTransactionWrapper>)
    ensures r.Some? <==> HasOngoingClientTransaction(w, branchId)
  {
    if branchId in w.clients then Some(w.clients[branchId]) else None
  }

  /** `getServerTransaction(id)`: null (`None`) when not ongoing. */
  function GetServerTransaction(w: DialogWrapper, branchId: string): (r: Option<ServerTransactionWrapper>)
    ensures r.Some? <==> HasOngoingServerTransaction(w, branchId)
  {
    if branchId in w.servers then Some(w.servers[branchId]) else None
  }

  function AddClientTransaction(w: DialogWrapper, ctw: ClientTransactionWrapper): (r: Result<DialogWrapper, DialogError>)
    ensures IsTerminated(w) ==> r == Failure(WrongDialogState)
    ensures !IsTerminated(w) && HasOngoingClientTransaction(w, ctw.branchId) ==> r == Failure(DuplicateTransaction)
    ensures r.Success? <==> !IsTerminated(w) && !HasOngoingClientTransaction(w, ctw.branchId)
    ensures r.Success? ==>
      && GetClientTransaction(r.value, ctw.branchId) == Some(ctw)
      && (forall b :: b != ctw.branchId ==> GetClientTransaction(r.value, b) == GetClientTransaction(w, b))
      && r.value.servers == w.servers
      && r.value.dialog == w.dialog
      && r.value.(clients := w.clients) == w
  {
    if IsTerminated(w) then Failure(WrongDialogState)
    else if HasOngoingClientTransaction(w, ctw.branchId) then Failure(DuplicateTransaction)
    else Success(w.(clients := w.clients[ctw.branchId := ctw]))
  }

  function AddServerTransaction(w: DialogWrapper, stw: ServerTransactionWrapper): (r: Result<DialogWrapper, DialogError>)
    ensures IsTerminated(w) ==> r == Failure(WrongDialogState)
    ensures !IsTerminated(w) && HasOngoingServerTransaction(w, stw.branchId) ==> r == Failure(DuplicateTransaction)
    ensures r.Success? <==> !IsTerminated(w) && !HasOngoingServerTransaction(w, stw.branchId)
    ensures r.Success? ==>
      && GetServerTransaction(r.value, stw.branchId) == Some(stw)
      && (forall b :: b != stw.branchId ==> GetServerTransaction(r.value, b) == GetServerTransaction(w, b))
      && r.value.clients == w.clients
      && r.value.dialog == w.dialog
      && r.value.(servers := w.servers) == w
  {
    if IsTerminated(w) then Failure(WrongDialogState)
    else if HasOngoingServerTransaction(w, stw.branchId) then Failure(DuplicateTransaction)
    else Success(w.(servers := w.servers[stw.branchId := stw]))
  }

  /** The generic add: one match on the wrapper's kind. */
  function AddOngoingTransaction(w: DialogWrapper, t: TransactionWrapper): (r: Result<DialogWrapper, DialogError>)
    ensures t.UntypedTx? ==> r == Failure(WrongTransactionType)
    ensures t.ClientTx? ==> r == AddClientTransaction(w, t.client)
    ensures t.ServerTx? ==> r == AddServerTransaction(w, t.server)
  {
    match t
    case ClientTx(c) => AddClientTransaction(w, c)
    case ServerTx(s) => AddServerTransaction(w, s)
    case UntypedTx(_) => Failure(WrongTransactionType)
  }

  /** Removal is a silent no-op on a TERMINATED dialog. */
  function RemoveClientTransaction(w: DialogWrapper, ctw: ClientTransactionWrapper): (r: DialogWrapper)
    ensures IsTerminated(w) ==> r == w
    ensures !IsTerminated(w) ==>
      && !HasOngoingClientTransaction(r, ctw.branchId)
      && (forall b :: b != ctw.branchId ==> GetClientTransaction(r, b) == GetClientTransaction(w, b))
      && r.servers == w.servers
      && r.dialog == w.dialog
      && r.(clients := w.clients) == w
  {
    if IsTerminated(w) then w else w.(clients := w.clients - {ctw.branchId})
  }

  function RemoveServerTransaction(w: DialogWrapper, stw: ServerTransactionWrapper): (r: DialogWrapper)
    ensures IsTerminated(w) ==> r == w
    ensures !IsTerminated(w) ==>
      && !HasOngoingServerTransaction(r, stw.branchId)
      && (forall b :: b != stw.branchId ==> GetServerTransaction(r, b) == GetServerTransaction(w, b))
      && r.clients == w.clients
      && r.dialog == w.dialog
      && r.(servers := w.servers) == w
  {
    if IsTerminated(w) then w else w.(servers := w.servers - {stw.branchId})
  }

  /** `clearAssociations` (and `clearOngoingTransaction`): each registered
      client wrapper drops its association, then both maps are emptied. The
      second component is the released client wrappers, by branch, as they
      stand afterwards. */
  function ClearAssociations(w: DialogWrapper): (r: (DialogWrapper, map<string, ClientTransactionWrapper>))
    ensures forall b :: !HasOngoingClientTransaction(r.0, b) && !HasOngoingServerTransaction(r.0, b)
    ensures r.0.dialog == w.dialog && r.0.initiatingTransactionId == w.initiatingTransactionId
    ensures r.1.Keys == w.clients.Keys
    ensures forall b :: b in w.clients ==>
      r.1[b].branchId == w.clients[b].branchId && r.1[b].associated.None?
  {
    (w.(clients := map[], servers := map[]),
     map b | b in w.clients :: w.clients[b].(associated := None))
  }

  /** After clearing, any branch can be added again unless the dialog is
      TERMINATED. */
  lemma ClearThenAdd(w: DialogWrapper, ctw: ClientTransactionWrapper, stw: ServerTransactionWrapper)
    ensures AddClientTransaction(ClearAssociations(w).0, ctw).Success? <==> !IsTerminated(w)
    ensures AddServerTransaction(ClearAssociations(w).0, stw).Success? <==> !IsTerminated(w)
  {
  }

  /** A client wrapper released by clearing and registered again carries no
      stale association. */
  lemma ClearThenReAddHasNoAssociation(w: DialogWrapper, b: string)
    requires b in w.clients && !IsTerminated(w)
    ensures var (cleared, released) := ClearAssociations(w);
      var again := AddClientTransaction(cleared, released[b]);
      again.Success? && GetAssociatedServerTransaction(again.value, released[b]) == Success(None)
  {
  }

  /** Adding a branch that is already ongoing fails, whatever the dialog state. */
  lemma AddClientTwiceFails(w: DialogWrapper, ctw: ClientTransactionWrapper, again: ClientTransactionWrapper)
    requires AddClientTransaction(w, ctw).Success?
    requires again.branchId == ctw.branchId
    ensures AddClientTransaction(AddClientTransaction(w, ctw).value, again).Failure?
  {
  }

  lemma AddServerTwiceFails(w: DialogWrapper, stw: ServerTransactionWrapper)
    requires AddServerTransaction(w, stw).Success?
    ensures AddServerTransaction(AddServerTransaction(w, stw).value, stw) == Failure(DuplicateTransaction)
  {
  }

  /** Add followed by remove of the same branch restores the client map. */
  lemma AddThenRemoveClient(w: DialogWrapper, ctw: ClientTransactionWrapper)
    requires AddClientTransaction(w, ctw).Success?
    ensures RemoveClientTransaction(AddClientTransaction(w, ctw).value, ctw) == w
  {
  }

  /** Add followed by remove of the same branch restores the server map. */
  lemma AddThenRemoveServer(w: DialogWrapper, stw: ServerTransactionWrapper)
    requires AddServerTransaction(w, stw).Success?
    ensures RemoveServerTransaction(AddServerTransaction(w, stw).value, stw) == w
  {
  }

  // ---------------------------------------------------------------- cross-dialog association

  /** `associateServerTransaction`: the client transaction must be ongoing
      here, the server transaction ongoing in its own dialog `stDialog`. The
      association is recorded on the registered client wrapper. */
  function AssociateServerTransaction(w: DialogWrapper, ct: ClientTransactionWrapper,
                                      st: ServerTransactionWrapper, stDialog: DialogWrapper)
    : (r: Result<DialogWrapper, DialogError>)
    ensures !HasOngoingClientTransaction(w, ct.branchId) ==> r == Failure(ClientTransactionNotOngoing)
    ensures HasOngoingClientTransaction(w, ct.branchId) && !HasOngoingServerTransaction(stDialog, st.branchId) ==>
      r == Failure(ServerTransactionNotOngoing)
    ensures r.Success? <==>
      HasOngoingClientTransaction(w, ct.branchId) && HasOngoingServerTransaction(stDialog, st.branchId)
    ensures r.Success? ==>
      && GetAssociatedServerTransaction(r.value, ct) == Success(Some(st))
      && GetClientTransaction(r.value, ct.branchId) == Some(ct.(associated := Some(st)))
      && (forall b :: b != ct.branchId ==> GetClientTransaction(r.value, b) == GetClientTransaction(w, b))
      && r.value.servers == w.servers && r.value.dialog == w.dialog
      && r.value.(clients := w.clients) == w
  {
    if !HasOngoingClientTransaction(w, ct.branchId) then Failure(ClientTransactionNotOngoing)
    else if !HasOngoingServerTransaction(stDialog, st.branchId) then Failure(ServerTransactionNotOngoing)
    else Success(w.(clients := w.clients[ct.branchId := ct.(associated := Some(st))]))
  }

  /** `getAssociatedServerTransaction`: fails for a client transaction that
      is not ongoing here; null (`None`) when nothing was associated. */
  function GetAssociatedServerTransaction(w: DialogWrapper, ct: ClientTransactionWrapper)
    : (r: Result<Option<ServerTransactionWrapper>, DialogError>)
    ensures !HasOngoingClientTransaction(w, ct.branchId) <==> r == Failure(ClientTransactionNotOngoing)
    ensures r.Success? ==> r.value == GetClientTransaction(w, ct.branchId).value.associated
  {
    if !HasOngoingClientTransaction(w, ct.branchId) then Failure(ClientTransactionNotOngoing)
    else Success(w.clients[ct.branchId].associated)
  }

  // ---------------------------------------------------------------- message forging

  predicate IsToOrFrom(name: string) {
    name == ToName || name == FromName
  }

  /** Headers a forged request never takes from the original. */
  const RequestOmitted: set<string> := {RouteName, RecordRouteName, ViaName, CallIdName, CSeqName}

  /** Headers a forged response never takes from the original. */
  const ResponseOmitted: set<string> := RequestOmitted + {ContactName}

  /** Facts about the omit-sets: To and From are in neither, and a response
      omits everything a request omits, plus Contact. */
  lemma OmittedNames()
    ensures forall k :: k in ResponseOmitted ==> !IsToOrFrom(k)
    ensures RequestOmitted <= ResponseOmitted
    ensures ContactName in ResponseOmitted && ContactName !in RequestOmitted
  {
  }

  /** The To/From parameter that is never copied: the dialog's own tag
      identifies it (section 19.3 of RFC 3261). */
  const TagOmitted: set<string> := {"tag"}

  /** `copyParameters`: every parameter of the original header that is
      neither omitted nor already present in the forged header is added. */
  function CopyParameters(orig: map<string, string>, forged: map<string, string>, omit: set<string>)
    : (r: map<string, string>)
    ensures r.Keys == forged.Keys + (orig.Keys - omit)
    ensures forall p :: p in forged ==> r[p] == forged[p]
    ensures forall p :: p in orig && p !in omit && p !in forged ==> r[p] == orig[p]
  {
    map p | p in forged.Keys + (orig.Keys - omit) :: if p in forged then forged[p] else orig[p]
  }

  /** The forged header's tag is its own: present exactly when it was, with
      the same value. */
  lemma CopyParametersKeepsTag(orig: map<string, string>, forged: map<string, string>)
    ensures var r := CopyParameters(orig, forged, TagOmitted);
      && ("tag" in r <==> "tag" in forged)
      && ("tag" in forged ==> r["tag"] == forged["tag"])
  {
  }

  /** Copying twice adds nothing to copying once. */
  lemma CopyParametersIdempotent(orig: map<string, string>, forged: map<string, string>, omit: set<string>)
    ensures CopyParameters(orig, CopyParameters(orig, forged, omit), omit) == CopyParameters(orig, forged, omit)
  {
  }

  /** The To/From headers of the forged message after the parameter merge
      into its first header. */
  function MergedToFrom(orig: Message, forged: Message, name: string): seq<Header> {
    var fh := Headers(forged, name);
    var oh := Headers(orig, name);
    if |fh| == 0 || |oh| == 0 then fh
    else [fh[0].(params := CopyParameters(oh[0].params, fh[0].params, TagOmitted))] + fh[1..]
  }

  /** What forging leaves under each header name: names the original lacks
      are untouched; To/From get the parameter merge; omitted names keep the
      forged message's headers; every other name takes the original's. */
  function ForgedHeaders(orig: Message, forged: Message, omit: set<string>, name: string): seq<Header> {
    if name !in orig.names then Headers(forged, name)
    else if IsToOrFrom(name) then MergedToFrom(orig, forged, name)
    else if name in omit then Headers(forged, name)
    else Headers(orig, name)
  }

  /** The parameter copy of a To/From name of the original returns
      normally: the original has the header, and so does the forged message
      unless the original's header has no parameter at all, in which case
      the copy loop never touches the absent forged header. */
  predicate ParametersCopyable(orig: Message, forged: Message, name: string) {
    IsToOrFrom(name) ==>
      && |Headers(orig, name)| > 0
      && (|Headers(forged, name)| > 0 || |Headers(orig, name)[0].params| == 0)
  }

  predicate Forgeable(orig: Message, forged: Message) {
    forall i :: 0 <= i < |orig.names| ==> ParametersCopyable(orig, forged, orig.names[i])
  }

  /** One step of `forgeMessage`: the treatment of one header name of the
      original. To/From merge parameters into the forged header: a null
      original header is a NullPointerException, and so is a null forged
      header once the original's has a parameter to look at; omitted names
      are skipped;
      any other name replaces the forged message's headers with copies of
      the original's. */
  function ForgeHeader(orig: Message, m: Message, omit: set<string>, name: string)
    : (r: Result<Message, DialogError>)
    ensures r.Failure? <==> !ParametersCopyable(orig, m, name)
    ensures r.Failure? ==> r.error == MissingParametersHeader(name)
    ensures r.Success? ==> forall k :: k != name ==> Headers(r.value, k) == Headers(m, k)
    ensures r.Success? && IsToOrFrom(name) ==> Headers(r.value, name) == MergedToFrom(orig, m, name)
    ensures r.Success? && !IsToOrFrom(name) && name in omit ==> Headers(r.value, name) == Headers(m, name)
    ensures r.Success? && !IsToOrFrom(name) && name !in omit ==> Headers(r.value, name) == Headers(orig, name)
  {
    if IsToOrFrom(name) then
      match (FirstHeader(orig, name), FirstHeader(m, name))
      case (None, _) => Failure(MissingParametersHeader(name))
      case (Some(oh), None) => if |oh.params| == 0 then Success(m) else Failure(MissingParametersHeader(name))
      case (Some(oh), Some(fh)) =>
        Success(SetFirstParams(m, name, CopyParameters(oh.params, fh.params, TagOmitted)))
    else if name in omit then
      Success(m)
    else
      var cleared := if |Headers(m, name)| > 0 then RemoveHeader(m, name) else m;
      Success(AddAllLast(cleared, name, Headers(orig, name)))
  }

  /** A To/From header without parameters in the original is no error
      even when the forged message lacks that header: nothing is copied and
      the message is left as it was. */
  lemma ForgeHeaderBareToFrom(orig: Message, m: Message, omit: set<string>, name: string)
    requires IsToOrFrom(name)
    requires |Headers(orig, name)| > 0 && |Headers(orig, name)[0].params| == 0
    requires |Headers(m, name)| == 0
    ensures ForgeHeader(orig, m, omit, name) == Success(m)
  {
  }

  /** Merging into an already merged header changes nothing more. */
  lemma MergedToFromIdempotent(orig: Message, forged: Message, m: Message, name: string)
    requires Headers(m, name) == MergedToFrom(orig, forged, name)
    requires |Headers(orig, name)| > 0 && |Headers(forged, name)| > 0
    ensures MergedToFrom(orig, m, name) == MergedToFrom(orig, forged, name)
  {
    CopyParametersIdempotent(Headers(orig, name)[0].params, Headers(forged, name)[0].params, TagOmitted);
  }

  /** The loop invariant of `forgeMessage`: the names handled so far hold
      their final headers, the others still hold the forged message's. */
  ghost predicate ForgedUpTo(orig: Message, forged: Message, omit: set<string>, m: Message, i: nat)
    requires i <= |orig.names|
  {
    forall k :: Headers(m, k) ==
      (if k in orig.names[..i] then ForgedHeaders(orig, forged, omit, k) else Headers(forged, k))
  }

  /** The name handled at step `i` holds its final headers afterwards,
      whether or not the same name was handled before. */
  lemma ForgeHeaderFinal(orig: Message, forged: Message, omit: set<string>, m: Message, name: string, seen: bool)
    requires name in orig.names
    requires ParametersCopyable(orig, forged, name)
    requires Headers(m, name) == if seen then ForgedHeaders(orig, forged, omit, name) else Headers(forged, name)
    requires ForgeHeader(orig, m, omit, name).Success?
    ensures Headers(ForgeHeader(orig, m, omit, name).value, name) == ForgedHeaders(orig, forged, omit, name)
  {
    if IsToOrFrom(name) && seen && |Headers(forged, name)| > 0 {
      MergedToFromIdempotent(orig, forged, m, name);
    }
  }

  /** At step `i`, the current headers of the name about to be handled:
      final if the name came earlier, the forged message's otherwise. An
      earlier occurrence also passed the To/From presence check. */
  lemma CurrentHeadersAt(orig: Message, forged: Message, omit: set<string>, m: Message, i: nat)
    requires i < |orig.names|
    requires forall j :: 0 <= j < i ==> ParametersCopyable(orig, forged, orig.names[j])
    requires ForgedUpTo(orig, forged, omit, m, i)
    ensures var name := orig.names[i];
      && (name in orig.names[..i] ==> ParametersCopyable(orig, forged, name))
      && Headers(m, name) ==
           if name in orig.names[..i] then ForgedHeaders(orig, forged, omit, name) else Headers(forged, name)
  {
  }

  lemma ForgeHeaderAdvances(orig: Message, forged: Message, omit: set<string>, m: Message, i: nat)
    requires i < |orig.names|
    requires forall j :: 0 <= j < i ==> ParametersCopyable(orig, forged, orig.names[j])
    requires ForgedUpTo(orig, forged, omit, m, i)
    ensures ForgeHeader(orig, m, omit, orig.names[i]).Success? <==>
            ParametersCopyable(orig, forged, orig.names[i])
    ensures ForgeHeader(orig, m, omit, orig.names[i]).Success? ==>
            ForgedUpTo(orig, forged, omit, ForgeHeader(orig, m, omit, orig.names[i]).value, i + 1)
  {
    var name := orig.names[i];
    var prefix := orig.names[..i];
    CurrentHeadersAt(orig, forged, omit, m, i);
    var r := ForgeHeader(orig, m, omit, name);
    if r.Success? {
      assert name in orig.names;
      ForgeHeaderFinal(orig, forged, omit, m, name, name in prefix);
      assert orig.names[..i + 1] == prefix + [name];
      forall k
        ensures Headers(r.value, k) ==
          (if k in orig.names[..i + 1] then ForgedHeaders(orig, forged, omit, k) else Headers(forged, k))
      {
        if k != name {
          assert (k in orig.names[..i + 1]) == (k in prefix);
        }
      }
    }
  }

  /** `forgeMessage`, header part: walks the original's header names in
      order. Message content is not modelled. */
  method ForgeMessage(orig: Message, forged: Message, omit: set<string>) returns (r: Result<Message, DialogError>)
    ensures r.Success? <==> Forgeable(orig, forged)
    ensures r.Failure? ==> r.error.MissingParametersHeader? && IsToOrFrom(r.error.name)
    ensures r.Success? ==> forall k :: Headers(r.value, k) == ForgedHeaders(orig, forged, omit, k)
  {
    var m := forged;
    var i := 0;
    while i < |orig.names|
      invariant 0 <= i <= |orig.names|
      invariant forall j :: 0 <= j < i ==> ParametersCopyable(orig, forged, orig.names[j])
      invariant ForgedUpTo(orig, forged, omit, m, i)
    {
      ForgeHeaderAdvances(orig, forged, omit, m, i);
      var step := ForgeHeader(orig, m, omit, orig.names[i]);
      if step.Failure? {
        return step;
      }
      m := step.value;
      i := i + 1;
    }
    assert orig.names[..i] == orig.names;
    return Success(m);
  }

  /** Forging, per kind of name: omitted names keep the forged message's
      headers, other non-To/From names of the original take its headers. */
  lemma ForgedHeadersByKind(orig: Message, forged: Message, omit: set<string>)
    ensures forall k :: k in omit && !IsToOrFrom(k) ==> ForgedHeaders(orig, forged, omit, k) == Headers(forged, k)
    ensures forall k :: k in orig.names && !IsToOrFrom(k) && k !in omit ==>
      ForgedHeaders(orig, forged, omit, k) == Headers(orig, k)
  {
  }

  /** `createRequest(Request)`: `forged` is the request the wrapped dialog
      creates for the original's method (`None` when that throws). */
  method CreateRequest(orig: Message, forged: Option<Message>) returns (r: Result<Message, DialogError>)
    ensures forged.None? ==> r == Failure(ForgeFailure)
    ensures r.Success? <==> forged.Some? && Forgeable(orig, forged.value)
    ensures r.Success? ==> forall k :: Headers(r.value, k) == ForgedHeaders(orig, forged.value, RequestOmitted, k)
    ensures r.Success? ==> forall k :: k in RequestOmitted ==> Headers(r.value, k) == Headers(forged.value, k)
    ensures r.Success? ==> forall k ::
      k in orig.names && !IsToOrFrom(k) && k !in RequestOmitted ==> Headers(r.value, k) == Headers(orig, k)
  {
    if forged.None? {
      return Failure(ForgeFailure);
    }
    r := ForgeMessage(orig, forged.value, RequestOmitted);
    ForgedHeadersByKind(orig, forged.value, RequestOmitted);
    OmittedNames();
  }

  /** The Contact header the header factory builds from an address. */
  function ContactHeaderFor(address: string): Header {
    Header(address, map[])
  }

  /** `createResponse`: the server transaction must be ongoing here;
      `forged` is the response the message factory creates for its request
      (`None` when that fails to parse). After forging, one Contact built
      from the dialog's local party is added. */
  method CreateResponse(w: DialogWrapper, st: ServerTransactionWrapper, received: Message,
                        forged: Option<Message>) returns (r: Result<Message, DialogError>)
    ensures !HasOngoingServerTransaction(w, st.branchId) ==> r == Failure(ServerTransactionNotOngoing)
    ensures HasOngoingServerTransaction(w, st.branchId) && forged.None? ==> r == Failure(ForgeFailure)
    ensures r.Success? <==>
      HasOngoingServerTransaction(w, st.branchId) && forged.Some? && Forgeable(received, forged.value)
    ensures r.Success? ==>
      && Headers(r.value, ContactName) == Headers(forged.value, ContactName) + [ContactHeaderFor(w.dialog.localParty)]
      && (forall k :: k != ContactName ==> Headers(r.value, k) == ForgedHeaders(received, forged.value, ResponseOmitted, k))
      && (forall k :: k in RequestOmitted ==> Headers(r.value, k) == Headers(forged.value, k))
      && (forall k :: k in received.names && !IsToOrFrom(k) && k !in ResponseOmitted ==>
            Headers(r.value, k) == Headers(received, k))
  {
    if !HasOngoingServerTransaction(w, st.branchId) {
      return Failure(ServerTransactionNotOngoing);
    }
    if forged.None? {
      return Failure(ForgeFailure);
    }
    var m :- ForgeMessage(received, forged.value, ResponseOmitted);
    ForgedHeadersByKind(received, forged.value, ResponseOmitted);
    OmittedNames();
    var withContact := AddLast(m, ContactName, ContactHeaderFor(w.dialog.localParty));
    assert Headers(m, ContactName) == Headers(forged.value, ContactName);
    assert forall k :: k != ContactName ==> Headers(withContact, k) == Headers(m, k);
    r := Success(withContact);
  }

  /** After forging, each To/From header of the forged message keeps its
      own tag and every parameter it already had. */
  lemma ForgedToFromKeepsOwnParameters(orig: Message, forged: Message, omit: set<string>, name: string)
    requires IsToOrFrom(name) && name in orig.names
    requires |Headers(forged, name)| > 0
    ensures var hs := ForgedHeaders(orig, forged, omit, name);
      var own := Headers(forged, name)[0].params;
      && |hs| == |Headers(forged, name)|
      && ("tag" in hs[0].params <==> "tag" in own)
      && (forall p :: p in own ==> hs[0].params[p] == own[p])
  {
    if |Headers(orig, name)| > 0 {
      CopyParametersKeepsTag(Headers(orig, name)[0].params, Headers(forged, name)[0].params);
    }
  }
}

=== FILE: outcomes.dfy ===
/** Failure-compatible wrappers shared by every module of the model.
    `Option` stands for a Java reference that may be null; `Result` stands for
    a call that either returns a value or throws one of the source's exceptions. */
module Outcomes {

  datatype Option<+T> = None | Some(value: T)

  datatype Result<+T, +E> = Success(value: T) | Failure(error: E) {

    predicate IsFailure() {
      Failure?
    }

    function PropagateFailure<U>(): Result<U, E>
      requires Failure?
    {
      Failure(error)
    }

    function Extract(): T
      requires Success?
    {
      value
    }
  }
}

=== FILE: profile_management.dfy ===
/** The managed-component handler of profile entities: the per-entity dirty
    flag, the validity check, the lifecycle hooks, and the usage parameter
    set lookups. The profile table's installed usage parameter sets are an
    abstract partial map from name (null is `None`) to set; what the table
    does for a name with no installed set is an abstract outcome of the
    table too. */
module ProfileManagement {
  import opened Outcomes

  datatype ProfileID = ProfileID(tableName: string, profileName: string)

  datatype ProfileEntity = ProfileEntity(profileName: string, dirty: bool)

  datatype UsageParameterSet = UsageParameterSet(setName: Option<string>)

  /** What the table's usage MBean does when asked for a name it has no
      set for: return null, or raise. */
  datatype LookupMiss = NullOnMiss | RaisesOnMiss(error: UsageError)

  /** The profile table's usage MBean: the usage parameter sets it has
      installed, by name, and its behaviour on a miss. */
  datatype ProfileTableUsage = ProfileTableUsage(
    installed: map<Option<string>, UsageParameterSet>,
    onMiss: LookupMiss)

  datatype ProfileObject = ProfileObject(entity: ProfileEntity, tableUsage: ProfileTableUsage)

  datatype UsageError =
    | NullUsageParameterSetName          // NullPointerException
    | UnrecognizedUsageParameterSetName  // UnrecognizedUsageParameterSetNameException
    | UsageLookupFailure                 // any other exception of the table's lookup

  /** The hook errors the signatures admit; the hooks never raise them. */
  datatype LifecycleError = ProfileVerificationFailure | ProfileCreateFailure

  datatype ProfileContext = ProfileContext(tableName: string)

  datatype LifecycleHook =
    | Initialize | Load | Store | Verify | Activate | Passivate | PostCreate | Remove
    | SetContext(context: ProfileContext)
    | UnsetContext

  // ---------------------------------------------------------------- dirty flag

  /** `isProfileDirty`: reads the entity's flag. */
  predicate IsProfileDirty(po: ProfileObject) {
    po.entity.dirty
  }

  /** `markProfileDirty`: raises the entity's flag and touches nothing else. */
  function MarkProfileDirty(po: ProfileObject): (r: ProfileObject)
    ensures IsProfileDirty(r)
    ensures r.entity.profileName == po.entity.profileName
    ensures r.tableUsage == po.tableUsage
    ensures IsProfileDirty(po) ==> r == po
  {
    po.(entity := po.entity.(dirty := true))
  }

  /** Marking is idempotent. */
  lemma MarkProfileDirtyIdempotent(po: ProfileObject)
    ensures MarkProfileDirty(MarkProfileDirty(po)) == MarkProfileDirty(po)
  {
  }

  /** `isProfileValid`: every profile is valid. */
  function IsProfileValid(po: ProfileObject, id: ProfileID): (r: bool)
    ensures r
  {
    true
  }

  // ---------------------------------------------------------------- lifecycle hooks

  /** Every lifecycle hook returns normally and leaves the profile object
      as it was. */
  function RunLifecycleHook(hook: LifecycleHook, po: ProfileObject): (r: Result<ProfileObject, LifecycleError>)
    ensures r == Success(po)
  {
    Success(po)
  }

  /** A run of hooks, stopping at the first failure. */
  function RunLifecycleHooks(hooks: seq<LifecycleHook>, po: ProfileObject): Result<ProfileObject, LifecycleError>
    decreases |hooks|
  {
    if |hooks| == 0 then Success(po)
    else
      match RunLifecycleHook(hooks[0], po)
      case Failure(e) => Failure(e)
      case Success(po') => RunLifecycleHooks(hooks[1..], po')
  }

  /** Any sequence of lifecycle hooks changes nothing, in particular not
      the dirty flag. */
  lemma {:induction false} LifecycleHooksChangeNothing(hooks: seq<LifecycleHook>, po: ProfileObject)
    ensures RunLifecycleHooks(hooks, po) == Success(po)
    ensures IsProfileDirty(RunLifecycleHooks(hooks, po).value) == IsProfileDirty(po)
    decreases |hooks|
  {
    if |hooks| > 0 {
      LifecycleHooksChangeNothing(hooks[1..], po);
    }
  }

  // ---------------------------------------------------------------- usage parameters

  /** `getInstalledUsageParameterSet` of the table's usage MBean: the set
      installed under the name (a non-null result) exactly when there is
      one; on a miss, whatever the table does, null or an error. */
  function InstalledUsageParameterSet(usage: ProfileTableUsage, name: Option<string>)
    : (r: Result<Option<UsageParameterSet>, UsageError>)
    ensures r == Success(None) || r.Failure? ==> name !in usage.installed
    ensures name in usage.installed ==> r == Success(Some(usage.installed[name]))
    ensures name !in usage.installed && usage.onMiss.NullOnMiss? ==> r == Success(None)
    ensures name !in usage.installed && usage.onMiss.RaisesOnMiss? ==> r == Failure(usage.onMiss.error)
  {
    if name in usage.installed then Success(Some(usage.installed[name]))
    else
      match usage.onMiss
      case NullOnMiss => Success(None)
      case RaisesOnMiss(e) => Failure(e)
  }

  /** `getProfileUsageParam`: a null name is refused before any lookup;
      otherwise the table's lookup decides, errors included. */
  function GetProfileUsageParam(po: ProfileObject, name: Option<string>)
    : (r: Result<Option<UsageParameterSet>, UsageError>)
    ensures name.None? ==> r == Failure(NullUsageParameterSetName)
    ensures name.Some? ==> r == InstalledUsageParameterSet(po.tableUsage, name)
  {
    if name.None? then Failure(NullUsageParameterSetName)
    else InstalledUsageParameterSet(po.tableUsage, name)
  }

  /** `getProfileDefaultUsageParam`: the table's lookup with the null name.
      It refuses nothing itself: a failure is the table's own miss error. */
  function GetProfileDefaultUsageParam(po: ProfileObject): (r: Result<Option<UsageParameterSet>, UsageError>)
    ensures (r.Success? && r.value.Some?) <==> None in po.tableUsage.installed
    ensures r.Success? && r.value.Some? ==> r.value.value == po.tableUsage.installed[None]
    ensures r.Failure? ==> po.tableUsage.onMiss == RaisesOnMiss(r.error)
    ensures None !in po.tableUsage.installed ==> (r.Failure? <==> po.tableUsage.onMiss.RaisesOnMiss?)
  {
    InstalledUsageParameterSet(po.tableUsage, None)
  }

  /** The two lookups part ways on null only: the named lookup refuses it,
      whatever is installed, while the default lookup hands it to the
      table. On a miss of both, they give the same answer. */
  lemma NamedAndDefaultLookups(po: ProfileObject, other: ProfileObject, name: string)
    ensures GetProfileUsageParam(po, None) == GetProfileUsageParam(other, None)
    ensures None in po.tableUsage.installed ==>
      GetProfileUsageParam(po, None).Failure? && GetProfileDefaultUsageParam(po).Success?
    ensures var r := GetProfileUsageParam(po, Some(name));
      (r.Success? && r.value.Some?) <==> Some(name) in po.tableUsage.installed
    ensures Some(name) !in po.tableUsage.installed && None !in po.tableUsage.installed ==>
      GetProfileUsageParam(po, Some(name)) == GetProfileDefaultUsageParam(po)
  {
  }
}

=== FILE: query_sm.dfy ===
/** The SMPP `query_sm` PDU's optional-parameter (TLV) policy: the PDU
    admits no TLV at all. */
module QuerySmPdu {
  import opened Outcomes

  /** An SMPP TLV tag: a 16-bit parameter code. */
  type Tag = t: int | 0 <= t < 0x1_0000

  datatype TlvValue = IntValue(i: int) | TextValue(s: string) | OctetsValue(octets: seq<int>)

  datatype SmppAddress = SmppAddress(ton: int, npi: int, address: string)

  datatype QuerySM = QuerySM(messageId: string, sourceAddress: SmppAddress)

  datatype TlvError = TlvNotPermitted(tag: Tag)

  /** `addTLV`: always refused, naming the tag. */
  function AddTlv(q: QuerySM, tag: Tag, v: TlvValue): (r: Result<QuerySM, TlvError>)
    ensures r == Failure(TlvNotPermitted(tag))
  {
    Failure(TlvNotPermitted(tag))
  }

  /** `getValue`: no value (null) for any tag. */
  function GetValue(q: QuerySM, tag: Tag): (r: Option<TlvValue>)
    ensures r.None?
  {
    None
  }

  /** `removeTLV`: nothing to remove (null) for any tag, and the PDU is
      left as it was. */
  function RemoveTlv(q: QuerySM, tag: Tag): (r: (QuerySM, Option<TlvValue>))
    ensures r.0 == q && r.1.None?
  {
    (q, None)
  }

  /** `hasTLV`: false for every tag. */
  function HasTlv(q: QuerySM, tag: Tag): (r: bool)
    ensures !r
  {
    false
  }

  /** `isTLVPermitted`: false for every tag. */
  function IsTlvPermitted(q: QuerySM, tag: Tag): (r: bool)
    ensures !r
  {
    false
  }

  /** `getAllTLVs`: null, not an empty map. */
  function GetAllTlvs(q: QuerySM): (r: Option<map<Tag, TlvValue>>)
    ensures r.None?
  {
    None
  }

  /** The permission predicate agrees with `addTLV`, and presence agrees
      with `getValue`, for every tag. */
  lemma TlvPolicyConsistent(q: QuerySM, tag: Tag, v: TlvValue)
    ensures IsTlvPermitted(q, tag) <==> AddTlv(q, tag, v).Success?
    ensures HasTlv(q, tag) <==> GetValue(q, tag).Some?
  {
  }

  /** After any `addTLV` attempt the PDU still holds no TLV. */
  lemma NoTlvAfterAdd(q: QuerySM, tag: Tag, v: TlvValue, probe: Tag)
    ensures var q' := match AddTlv(q, tag, v) case Success(added) => added case Failure(_) => q;
      !HasTlv(q', probe) && GetValue(q', probe).None?
  {
  }
}

=== FILE: service.dfy ===
/** The run-time record of a deployed JAIN SLEE service: its operational state
    with the INACTIVE fallback, the convergence-name map to root SBB entities,
    the service activity, and the after-commit fan-out of state changes to the
    resource adaptor entities.

    The container singleton the source reaches through JNDI is replaced by
    explicit state: the service's cache record travels inside `Service`, the
    transaction is a `TransactionContext` (an "active" flag and the ordered
    after-commit queue), and the activity-context registry is a map passed in
    and returned. */
module SleeService {
  import opened Outcomes

  /** A Java `byte`. */
  type Byte = x: int | -128 <= x <= 127

  type ServiceID = string
  type SbbID = string
  type SbbEntityID = string
  type ConvergenceName = string
  type RaEntityName = string

  datatype ServiceState = Inactive | Active | Stopping

  /** The deployed descriptor: service ID, root SBB and the default priority
      declared for the service. */
  datatype ServiceComponent = ServiceComponent(
    serviceId: ServiceID,
    rootSbbId: SbbID,
    defaultPriority: Byte)

  /** The service's record in the clustered cache. `present` is the cache
      node's presence, `removed` the flag set by `remove()`, `state` is null
      (`None`) until a state is written. */
  datatype ServiceCacheData = ServiceCacheData(
    present: bool,
    removed: bool,
    state: Option<ServiceState>,
    children: map<ConvergenceName, SbbEntityID>)

  /** A freshly created cache node. */
  const NewCacheData := ServiceCacheData(true, false, None, map[])

  datatype Service = Service(
    component: ServiceComponent,
    defaultPriority: Byte,
    cacheData: ServiceCacheData)

  datatype ServiceError =
    | NullServiceComponent           // NullPointerException in the constructor
    | ServiceLoadFailure             // RuntimeException wrapping a failed cache lookup
    | TransactionRequired            // mandateTransaction found no transaction
    | AfterCommitRegistrationFailed  // SLEEException wrapping the SystemException
    | SbbEntityCreateFailure         // CreateException from the SBB entity factory
    | ServiceActivityAlreadyExists   // SystemException "service activity already exists"

  /** The one kind of after-commit action a service queues: tell every
      resource adaptor entity about `state` of `serviceId`. */
  datatype AfterCommitAction = NotifyServiceState(serviceId: ServiceID, state: Option<ServiceState>)

  /** The ambient transaction as the service sees it. */
  datatype TransactionContext = TransactionContext(active: bool, afterCommit: seq<AfterCommitAction>)

  /** One call on a resource adaptor entity. */
  datatype RaCall =
    | ServiceActiveCall(raEntity: RaEntityName, serviceId: ServiceID)
    | ServiceStoppingCall(raEntity: RaEntityName, serviceId: ServiceID)
    | ServiceInactiveCall(raEntity: RaEntityName, serviceId: ServiceID)
  {
    /** The state this call announces. */
    function Announces(): ServiceState {
      match this
      case ServiceActiveCall(_, _) => Active
      case ServiceStoppingCall(_, _) => Stopping
      case ServiceInactiveCall(_, _) => Inactive
    }
  }

  datatype ActivityContextHandle =
    | ServiceActivityHandle(serviceId: ServiceID)
    | OtherActivityHandle(activityId: string)

  datatype SleeEvent = ServiceStartedEvent(serviceId: ServiceID)

  /** An activity context: its handle, whether it was ended, and the events
      fired on it, in firing order. */
  datatype ActivityContext = ActivityContext(
    handle: ActivityContextHandle,
    ended: bool,
    events: seq<SleeEvent>)

  type ActivityContextRegistry = map<ActivityContextHandle, ActivityContext>

  /** What `endActivity` did: ended the context, or logged that none exists. */
  datatype EndReport = ActivityEnded | ActivityContextNotFound

  datatype SbbEntity = SbbEntity(
    id: SbbEntityID,
    rootSbbId: SbbID,
    serviceId: ServiceID,
    convergenceName: ConvergenceName,
    priority: Byte)

  function ServiceId(svc: Service): ServiceID {
    svc.component.serviceId
  }

  // ---------------------------------------------------------------- construction

  /** The constructor. `component` is the descriptor (null is `None`);
      `lookedUp` is the cache's record for the descriptor's service ID, or
      `None` when that lookup threw; `createSucceeds` says whether creating
      a missing record returns normally. Both failures inside the try are
      the wrapped load error. */
  function NewService(component: Option<ServiceComponent>, initCachedData: bool,
                      lookedUp: Option<ServiceCacheData>, createSucceeds: bool)
    : (r: Result<Service, ServiceError>)
    ensures component.None? ==> r == Failure(NullServiceComponent)
    ensures component.Some? && lookedUp.None? ==> r == Failure(ServiceLoadFailure)
    ensures component.Some? && lookedUp.Some? ==>
      (r.Success? <==> createSucceeds || lookedUp.value.present || !initCachedData)
    ensures component.Some? && r.Failure? ==> r.error == ServiceLoadFailure
    ensures r.Success? ==>
      && Some(r.value.component) == component
      && r.value.defaultPriority == component.value.defaultPriority
    ensures r.Success? && (lookedUp.value.present || !initCachedData) ==>
      r.value.cacheData == lookedUp.value
    ensures r.Success? && initCachedData && !lookedUp.value.present ==>
      r.value.cacheData == NewCacheData
  {
    match component
    case None => Failure(NullServiceComponent)
    case Some(c) =>
      match lookedUp
      case None => Failure(ServiceLoadFailure)
      case Some(data) =>
        if initCachedData && !data.present then
          if createSucceeds then Success(Service(c, c.defaultPriority, NewCacheData))
          else Failure(ServiceLoadFailure)
        else
          Success(Service(c, c.defaultPriority, data))
  }

  /** `removeFromCache`: the cache node is removed and flagged as such. */
  function RemoveFromCache(svc: Service): (r: Service)
    ensures GetState(r) == Inactive
    ensures forall n :: !ContainsConvergenceName(r, n)
    ensures r.component == svc.component && r.defaultPriority == svc.defaultPriority
  {
    svc.(cacheData := ServiceCacheData(false, true, None, map[]))
  }

  /** A service constructed over a missing record, with `initCachedData`,
      reads as INACTIVE with no convergence name mapped, and so does any
      constructed service once removed from the cache. */
  lemma NewServiceStartsInactive(c: ServiceComponent, initCachedData: bool, lookedUp: ServiceCacheData,
                                 createSucceeds: bool)
    ensures var r := NewService(Some(c), initCachedData, Some(lookedUp), createSucceeds);
      r.Success? && initCachedData && !lookedUp.present ==>
        && GetState(r.value) == Inactive
        && forall n :: GetRootSbbEntityId(r.value, n).None?
    ensures var r := NewService(Some(c), initCachedData, Some(lookedUp), createSucceeds);
      r.Success? ==> GetState(RemoveFromCache(r.value)) == Inactive
  {
  }

  // ---------------------------------------------------------------- state

  /** `getState`: the stored state of a live record, INACTIVE otherwise. */
  function GetState(svc: Service): (s: ServiceState)
    ensures !svc.cacheData.present || svc.cacheData.removed || svc.cacheData.state.None? ==>
      s == Inactive
    ensures svc.cacheData.present && !svc.cacheData.removed && svc.cacheData.state.Some? ==>
      s == svc.cacheData.state.value
  {
    if svc.cacheData.present && !svc.cacheData.removed then
      match svc.cacheData.state
      case Some(st) => st
      case None => Inactive
    else
      Inactive
  }

  /** `setState`: the state is written first, whatever follows; then one
      notification action is queued after commit. With no transaction to
      queue on, the registration fails, and the write stays done. */
  function SetState(svc: Service, tx: TransactionContext, s: Option<ServiceState>)
    : (r: (Service, Result<TransactionContext, ServiceError>))
    ensures r.0.cacheData.state == s
    ensures r.0.cacheData.(state := svc.cacheData.state) == svc.cacheData
    ensures r.0.component == svc.component && r.0.defaultPriority == svc.defaultPriority
    ensures !tx.active <==> r.1 == Failure(AfterCommitRegistrationFailed)
    ensures r.1.Success? ==>
      var tx' := r.1.value;
      && tx'.active
      && |tx'.afterCommit| == |tx.afterCommit| + 1
      && tx'.afterCommit[..|tx.afterCommit|] == tx.afterCommit
      && tx'.afterCommit[|tx.afterCommit|] == NotifyServiceState(ServiceId(svc), s)
  {
    var svc' := svc.(cacheData := svc.cacheData.(state := s));
    if !tx.active then
      (svc', Failure(AfterCommitRegistrationFailed))
    else
      (svc', Success(tx.(afterCommit := tx.afterCommit + [NotifyServiceState(ServiceId(svc), s)])))
  }

  // ---------------------------------------------------------------- after-commit fan-out

  /** The one resource adaptor call the queued action makes for `state`;
      a null state matches none of the three branches and makes no call. */
  function CallFor(state: Option<ServiceState>, ra: RaEntityName, sid: ServiceID): (calls: seq<RaCall>)
    ensures state.None? ==> calls == []
    ensures state.Some? ==>
      |calls| == 1 && calls[0].raEntity == ra && calls[0].serviceId == sid &&
      calls[0].Announces() == state.value
  {
    match state
    case None => []
    case Some(Active) => [ServiceActiveCall(ra, sid)]
    case Some(Stopping) => [ServiceStoppingCall(ra, sid)]
    case Some(Inactive) => [ServiceInactiveCall(ra, sid)]
  }

  /** Running one queued action against the resource adaptor entities
      registered at the time it runs, in their list order. */
  function ExecuteAction(action: AfterCommitAction, ras: seq<RaEntityName>): (calls: seq<RaCall>)
    ensures action.state.None? ==> calls == []
    ensures action.state.Some? ==>
      && |calls| == |ras|
      && forall i :: 0 <= i < |ras| ==>
           && calls[i].raEntity == ras[i]
           && calls[i].serviceId == action.serviceId
           && calls[i].Announces() == action.state.value
    decreases |ras|
  {
    if |ras| == 0 then []
    else CallFor(action.state, ras[0], action.serviceId) + ExecuteAction(action, ras[1..])
  }

  /** The recipients of a sequence of calls, in call order. */
  function Recipients(calls: seq<RaCall>): (rs: seq<RaEntityName>)
    ensures |rs| == |calls|
    ensures forall i :: 0 <= i < |calls| ==> rs[i] == calls[i].raEntity
  {
    seq(|calls|, i requires 0 <= i < |calls| => calls[i].raEntity)
  }

  /** Commit: the queued actions run in registration order. */
  function RunAfterCommitActions(actions: seq<AfterCommitAction>, ras: seq<RaEntityName>): seq<RaCall>
    decreases |actions|
  {
    if |actions| == 0 then []
    else ExecuteAction(actions[0], ras) + RunAfterCommitActions(actions[1..], ras)
  }

  /** Queuing one more action only adds that action's calls, at the end. */
  lemma {:induction false} RunAfterCommitActionsAppend(
    actions: seq<AfterCommitAction>, last: AfterCommitAction, ras: seq<RaEntityName>)
    ensures RunAfterCommitActions(actions + [last], ras) ==
            RunAfterCommitActions(actions, ras) + ExecuteAction(last, ras)
    decreases |actions|
  {
    if |actions| == 0 {
      assert actions + [last] == [last];
      assert ([last])[1..] == [];
    } else {
      assert (actions + [last])[0] == actions[0];
      assert (actions + [last])[1..] == actions[1..] + [last];
      RunAfterCommitActionsAppend(actions[1..], last, ras);
    }
  }

  /** `setState(s)` inside a transaction calls nothing itself; on commit,
      the calls already due are followed by one call per resource adaptor
      entity, in list order, announcing `s` for this service. */
  lemma SetStateNotifiesOnCommit(svc: Service, tx: TransactionContext, s: ServiceState,
                                 ras: seq<RaEntityName>)
    requires tx.active
    ensures SetState(svc, tx, Some(s)).1.Success?
    ensures
      var tx' := SetState(svc, tx, Some(s)).1.value;
      var before := RunAfterCommitActions(tx.afterCommit, ras);
      var after := RunAfterCommitActions(tx'.afterCommit, ras);
      && |after| == |before| + |ras|
      && after[..|before|] == before
      && Recipients(after[|before|..]) == ras
      && forall c :: c in after[|before|..] ==> c.Announces() == s && c.serviceId == ServiceId(svc)
  {
    var tx' := SetState(svc, tx, Some(s)).1.value;
    assert tx'.afterCommit == tx.afterCommit + [NotifyServiceState(ServiceId(svc), Some(s))];
    RunAfterCommitActionsAppend(tx.afterCommit, NotifyServiceState(ServiceId(svc), Some(s)), ras);
    var before := RunAfterCommitActions(tx.afterCommit, ras);
    var tail := ExecuteAction(NotifyServiceState(ServiceId(svc), Some(s)), ras);
    var after := RunAfterCommitActions(tx'.afterCommit, ras);
    assert after == before + tail;
    assert after[|before|..] == tail;
    assert Recipients(tail) == ras;
  }

  /** In a transaction with nothing queued yet, each resource adaptor entity
      receives exactly the call for the new state, once per registration. */
  lemma SetStateSoleNotifications(svc: Service, tx: TransactionContext, s: ServiceState,
                                  ras: seq<RaEntityName>)
    requires tx.active && tx.afterCommit == []
    ensures
      var calls := RunAfterCommitActions(SetState(svc, tx, Some(s)).1.value.afterCommit, ras);
      && Recipients(calls) == ras
      && forall i :: 0 <= i < |calls| ==> calls[i].Announces() == s && calls[i].serviceId == ServiceId(svc)
  {
  }

  /** Writing a state and reading it back: a live record returns what was
      written, a null write reads back as INACTIVE, whether or not the
      notification could be queued. */
  lemma SetStateThenGetState(svc: Service, tx: TransactionContext, s: Option<ServiceState>)
    requires svc.cacheData.present && !svc.cacheData.removed
    ensures GetState(SetState(svc, tx, s).0) == (if s.Some? then s.value else Inactive)
  {
  }

  // ---------------------------------------------------------------- convergence names

  /** `containsConvergenceName`. */
  predicate ContainsConvergenceName(svc: Service, name: ConvergenceName) {
    name in svc.cacheData.children
  }

  /** `getRootSbbEntityId`: null (`None`) for an unmapped name. */
  function GetRootSbbEntityId(svc: Service, name: ConvergenceName): (r: Option<SbbEntityID>)
    ensures r.Some? <==> ContainsConvergenceName(svc, name)
  {
    if name in svc.cacheData.children then Some(svc.cacheData.children[name]) else None
  }

  /** `addChild`: requires a transaction, creates the root SBB entity (whose
      ID the factory yields, or `None` when it throws CreateException), gives
      it the service's default priority and maps the name to it. */
  function AddChild(svc: Service, tx: TransactionContext, name: ConvergenceName,
                    created: Option<SbbEntityID>): (r: Result<(Service, SbbEntity), ServiceError>)
    ensures !tx.active ==> r == Failure(TransactionRequired)
    ensures tx.active && created.None? ==> r == Failure(SbbEntityCreateFailure)
    ensures tx.active && created.Some? ==> r.Success?
    ensures r.Success? ==>
      var (svc', e) := r.value;
      && e.id == created.value
      && e.priority == svc.defaultPriority
      && e.rootSbbId == svc.component.rootSbbId
      && e.serviceId == ServiceId(svc)
      && e.convergenceName == name
      && GetRootSbbEntityId(svc', name) == Some(e.id)
      && (forall n :: n != name ==> GetRootSbbEntityId(svc', n) == GetRootSbbEntityId(svc, n))
      && svc'.component == svc.component && svc'.defaultPriority == svc.defaultPriority
      && GetState(svc') == GetState(svc)
  {
    if !tx.active then
      Failure(TransactionRequired)
    else
      match created
      case None => Failure(SbbEntityCreateFailure)
      case Some(id) =>
        var e := SbbEntity(id, svc.component.rootSbbId, ServiceId(svc), name, svc.defaultPriority);
        var data := svc.cacheData.(children := svc.cacheData.children[name := id]);
        Success((svc.(cacheData := data), e))
  }

  /** `removeConvergenceName`: drops the mapping only; the entity itself is
      left to the end of its activity. */
  function RemoveConvergenceName(svc: Service, name: ConvergenceName): (r: Service)
    ensures !ContainsConvergenceName(r, name)
    ensures forall n :: n != name ==> GetRootSbbEntityId(r, n) == GetRootSbbEntityId(svc, n)
    ensures r.component == svc.component && GetState(r) == GetState(svc)
  {
    svc.(cacheData := svc.cacheData.(children := svc.cacheData.children - {name}))
  }

  /** A name added and then removed is unmapped again; every other name
      keeps the root entity it had before the add. */
  lemma AddChildThenRemove(svc: Service, tx: TransactionContext, name: ConvergenceName, id: SbbEntityID)
    requires tx.active
    ensures
      var svc' := RemoveConvergenceName(AddChild(svc, tx, name, Some(id)).value.0, name);
      && GetRootSbbEntityId(svc', name).None?
      && forall n :: n != name ==> GetRootSbbEntityId(svc', n) == GetRootSbbEntityId(svc, n)
  {
  }

  // ---------------------------------------------------------------- service activity

  function ServiceActivityHandleOf(svc: Service): ActivityContextHandle {
    ServiceActivityHandle(ServiceId(svc))
  }

  /** `startActivity`: strict creation of the service activity's context,
      which then carries one service-started event. */
  function StartActivity(svc: Service, acs: ActivityContextRegistry): (r: Result<ActivityContextRegistry, ServiceError>)
    ensures ServiceActivityHandleOf(svc) in acs <==> r == Failure(ServiceActivityAlreadyExists)
    ensures r.Success? ==>
      var h := ServiceActivityHandleOf(svc);
      && r.value.Keys == acs.Keys + {h}
      && r.value[h].handle == h
      && !r.value[h].ended
      && r.value[h].events == [ServiceStartedEvent(ServiceId(svc))]
      && forall k :: k in acs ==> r.value[k] == acs[k]
  {
    var h := ServiceActivityHandleOf(svc);
    if h in acs then
      Failure(ServiceActivityAlreadyExists)
    else
      Success(acs[h := ActivityContext(h, false, [ServiceStartedEvent(ServiceId(svc))])])
  }

  /** `endActivity`: ends the service activity's context when there is one;
      otherwise nothing changes and the miss is only reported. */
  function EndActivity(svc: Service, acs: ActivityContextRegistry): (r: (ActivityContextRegistry, EndReport))
    ensures ServiceActivityHandleOf(svc) !in acs ==> r == (acs, ActivityContextNotFound)
    ensures ServiceActivityHandleOf(svc) in acs ==>
      var h := ServiceActivityHandleOf(svc);
      && r.1 == ActivityEnded
      && r.0.Keys == acs.Keys
      && r.0[h] == acs[h].(ended := true)
      && forall k :: k in acs && k != h ==> r.0[k] == acs[k]
  {
    var h := ServiceActivityHandleOf(svc);
    if h in acs then (acs[h := acs[h].(ended := true)], ActivityEnded)
    else (acs, ActivityContextNotFound)
  }

  /** Starting twice fails the second time; the first start's context is
      the one that remains registered. */
  lemma StartActivityTwice(svc: Service, acs: ActivityContextRegistry)
    requires StartActivity(svc, acs).Success?
    ensures StartActivity(svc, StartActivity(svc, acs).value) == Failure(ServiceActivityAlreadyExists)
  {
  }

  /** A started service activity, once ended, is marked ended and still
      carries the one service-started event. */
  lemma StartThenEndActivity(svc: Service, acs: ActivityContextRegistry)
    requires StartActivity(svc, acs).Success?
    ensures
      var (acs', report) := EndActivity(svc, StartActivity(svc, acs).value);
      var h := ServiceActivityHandleOf(svc);
      && report == ActivityEnded
      && h in acs' && acs'[h].ended
      && acs'[h].events == [ServiceStartedEvent(ServiceId(svc))]
  {
  }
}

=== FILE: sip_messages.dfy ===
/** The slice of a javax.sip message that message forging touches: header
    names in order, and for each name the headers carrying it. A header is
    its text and its parameter map (the `Parameters` view of To and From).
    Re-parsing a copied header through the header factory is an identity
    copy here. */
module SipMessages {
  import opened Outcomes

  datatype Header = Header(text: string, params: map<string, string>)

  datatype Message = Message(names: seq<string>, fields: map<string, seq<Header>>)

  const ToName := "To"
  const FromName := "From"
  const RouteName := "Route"
  const RecordRouteName := "Record-Route"
  const ViaName := "Via"
  const CallIdName := "Call-ID"
  const CSeqName := "CSeq"
  const ContactName := "Contact"

  /** `getHeaders(name)`, as a sequence. */
  function Headers(m: Message, name: string): seq<Header> {
    if name in m.fields then m.fields[name] else []
  }

  /** `getHeader(name)`: the first header of that name, or null. */
  function FirstHeader(m: Message, name: string): (r: Option<Header>)
    ensures r.Some? <==> |Headers(m, name)| > 0
    ensures r.Some? ==> r.value == Headers(m, name)[0]
  {
    if |Headers(m, name)| > 0 then Some(Headers(m, name)[0]) else None
  }

  /** `names` with every occurrence of `name` dropped. */
  function Without(names: seq<string>, name: string): (r: seq<string>)
    ensures forall n :: n in r <==> n in names && n != name
    ensures |r| <= |names|
  {
    if |names| == 0 then []
    else if names[0] == name then Without(names[1..], name)
    else [names[0]] + Without(names[1..], name)
  }

  /** `removeHeader(name)`: every header of that name goes. */
  function RemoveHeader(m: Message, name: string): (r: Message)
    ensures forall k :: Headers(r, k) == if k == name then [] else Headers(m, k)
    ensures name !in r.names
  {
    Message(Without(m.names, name), m.fields - {name})
  }

  /** `addLast(header)`: appended after the headers of the same name. */
  function AddLast(m: Message, name: string, h: Header): (r: Message)
    ensures forall k :: Headers(r, k) == if k == name then Headers(m, name) + [h] else Headers(m, k)
    ensures name in r.names
  {
    var names := if name in m.names then m.names else m.names + [name];
    Message(names, m.fields[name := Headers(m, name) + [h]])
  }

  /** Appending a run of headers of one name, one `addLast` at a time. */
  function AddAllLast(m: Message, name: string, hs: seq<Header>): (r: Message)
    ensures forall k :: Headers(r, k) == if k == name then Headers(m, name) + hs else Headers(m, k)
    decreases |hs|
  {
    if |hs| == 0 then m
    else
      var r := AddAllLast(AddLast(m, name, hs[0]), name, hs[1..]);
      assert Headers(m, name) + [hs[0]] + hs[1..] == Headers(m, name) + hs;
      r
  }

  /** Replacing the parameters of the first header of `name`. */
  function SetFirstParams(m: Message, name: string, params: map<string, string>): (r: Message)
    requires |Headers(m, name)| > 0
    ensures forall k :: k != name ==> Headers(r, k) == Headers(m, k)
    ensures |Headers(r, name)| == |Headers(m, name)|
    ensures Headers(r, name)[0] == Headers(m, name)[0].(params := params)
    ensures Headers(r, name)[1..] == Headers(m, name)[1..]
  {
    var hs := Headers(m, name);
    m.(fields := m.fields[name := [hs[0].(params := params)] + hs[1..]])
  }
}
